=== FILE: README.md ===
# Identity chaincode: a Dafny model

This project models the two versions of the identity chaincode: `identity_chaincode.go` and
`identity_chaincode.js`. Both run on a key-value world state. A single identity authority
is fixed by `Init` and is the only organisation allowed to update users' metadata and to
register service providers. In the Go version it is also the only one allowed to issue
identities. A service provider asks for access to a user's identity by presenting a
signature made with the user's key.

The world state is an immutable `map<string, Value>`. It has three key namespaces:
`identityAuthority` holds the authority's raw org id, `user_<id>` holds a user record and
`sp_<id>` holds a service-provider record (modules `Keys` and `Store`). Every handler is a
pure function. It takes the ledger, the caller's MSP id and the string arguments, and it
returns a response and the new ledger. In JavaScript it also returns the chaincode event,
if one is emitted. The two versions differ, and each has its own model: `GoChaincode` and
`JsChaincode`, with cross-call properties in `GoProperties` and `JsProperties`. Base16
(section 8 of RFC 4648) and go-ethereum's `0x`-prefixed decoding are modelled in `Hex`.

The versions differ in several places, and the model keeps each difference as the code
has it:
- Go `issueIdentity` and `addServiceProvider` overwrite an existing record. The
  JavaScript handlers reject a duplicate id.
- Go `getIdentity` and `getServiceProvider` answer a missing record with a success and
  an empty payload. The JavaScript handlers test for a missing record, but the test can
  never fire, so as written they answer the same way (see "Findings").
- JavaScript `issueIdentity` performs no authority check.
- JavaScript `updateUserMetaDataHash` reports a missing user before it checks the
  authority.
- Neither `requestAccess` stores a permission. Go only verifies the signature. JavaScript
  also emits a `grantAccess` event.

The caller's MSP id is an input. The foreign pieces are parameters:
- In Go, a `Crypto` value supplies Keccak-256 and `Ecrecover`.
- In JavaScript, a `Runtime` value supplies `JSON.parse` of the request arguments and
  `ethGSV.verify`.

Go's own comparison is on hex strings: the stored key's hex against the recovered key's
hex minus two characters. `GoChaincode.HexKeyComparison` proves that this comparison is
the same as comparing bytes: the recovered key without its leading format byte must equal
the stored key.

In JavaScript, `getState` of an absent key yields an empty buffer. Its `.toString()` is the
empty string, so the checks written on `.toString()` are modelled as "the stored text is
empty" (`HasText`). A buffer object is always truthy, so the checks `!creatorIdentity`,
`!user` and `!sp` never fire. The three read handlers are modelled as written (`...AsWritten`,
which return an empty payload for a missing record) and as intended (which throw "not
found" when the record reads as empty).

## Model

| member | source | states |
|---|---|---|
| Keys.KeysDistinct | identity_chaincode.go:255 | user keys, service-provider keys and `identityAuthority` never collide, and each namespace's key is injective in the id |
| Keys.ClassifyUserKey | identity_chaincode.go:134 | the key `user_<id>` parses back to the user id it was built from |
| Keys.ClassifySpKey | identity_chaincode.go:255 | the key `sp_<id>` parses back to the organisation id it was built from |
| Store.AuthorizedIff | identity_chaincode.go:99-122 | in a well-formed ledger the authority check passes exactly for the stored org id, and only for the empty id while none is stored |
| Hex.Encode | identity_chaincode.go:349 | the encoding is twice as long as the bytes and uses only the lower-case digits `0`-`9`, `a`-`f` |
| Hex.Decode | identity_chaincode.go:334 | decoding succeeds exactly on an even-length string of hex digits of either case, and yields half as many bytes |
| Hex.PrefixedDecode | identity_chaincode.go:342 | succeeds exactly when the text starts with `0x` or `0X` and the rest decodes, and then yields the decoding of the rest |
| Hex.DecodeEncode | identity_chaincode.go:334 | hex decoding undoes hex encoding for every byte string |
| Hex.EncodeDecode | identity_chaincode.go:349 | re-encoding a decoded key gives its lower-case spelling, so the stored key is compared case-insensitively |
| Hex.EncodeInjective | identity_chaincode.go:349 | two byte strings with the same hex encoding are equal |
| Hex.PrefixedDecodeEncode | identity_chaincode.go:342 | `hexutil` decoding accepts `0x` followed by the hex of any bytes and returns those bytes |
| GoChaincode.Init | identity_chaincode.go:46-53 | stores the caller as the authority, succeeds, and changes no other key |
| GoChaincode.GetCreatorIdentity | identity_chaincode.go:77-89 | fails with "Identity not yet stored" exactly when no authority is stored, and otherwise returns it; writes nothing |
| GoChaincode.IssueIdentity | identity_chaincode.go:91-141 | needs exactly 3 arguments, then the authority, otherwise fails with the ledger untouched; on success the user is the given key and hash with no permissions, and only that key changed |
| GoChaincode.GetIdentity | identity_chaincode.go:143-155 | needs exactly 1 argument; returns the stored user, or an empty payload when there is none; writes nothing |
| GoChaincode.UpdateUserMetadataHash | identity_chaincode.go:157-210 | 2 arguments, then authority, then an existing user; on success only the hash changes, the key and permissions stay, and no other key changes |
| GoChaincode.AddServiceProvider | identity_chaincode.go:212-262 | 3 arguments, then authority; on success stores `{name, publicKey}` with no existence check, and no other key changes |
| GoChaincode.GetServiceProvider | identity_chaincode.go:264-276 | needs exactly 1 argument; returns the stored record or an empty payload; writes nothing |
| GoChaincode.TrimFrom | identity_chaincode.go:279-286 | the rune loop returns the suffix after `n` runes, all of `s` when `n <= 0`, and "" when the runes run out |
| GoChaincode.TrimLeftChars | identity_chaincode.go:278-287 | drops the first `n` characters; returns "" when `n` is at least the length and `s` when `n <= 0` |
| GoChaincode.HexKeyComparison | identity_chaincode.go:349 | comparing the stored key's hex with the recovered key's hex minus two characters decides whether the recovered key without its format byte equals the stored key |
| GoChaincode.RequestAccess | identity_chaincode.go:289-354 | never writes; fails on a wrong argument count, a missing user, a caller without a service-provider record, a stored key that is not hex, or a malformed signature (the `MustDecode` panic); then fails with "Failed to generate public key" when key recovery fails and "Signature invalid" when the recovered key does not match; succeeds exactly when the key recovered from the hash of the grant message for the caller matches the stored key |
| GoChaincode.Invoke | identity_chaincode.go:56-75 | an unknown name fails with "Invalid function name"; only an authority call to a writer changes the ledger; no call touches the authority; a failed call writes nothing; well-formedness is kept |
| GoChaincode.GrantMessage | identity_chaincode.go:340 | the signed message is the fixed prefix `{"action":"grantAccess","to":"`, then exactly the org id, then the suffix `"}` |
| GoProperties.GrantMessageInjective | identity_chaincode.go:340 | the grant message `{"action":"grantAccess","to":"<org>"}` determines the org id |
| GoProperties.InitThenGetCreator | identity_chaincode.go:46-88 | `getCreatorIdentity` after `Init` returns the initialiser's MSP id |
| GoProperties.IssueThenGet | identity_chaincode.go:124-154 | `getIdentity` after an authorised `issueIdentity` returns exactly the issued key, hash and empty permissions |
| GoProperties.AddThenGetServiceProvider | identity_chaincode.go:212-276 | `getServiceProvider` after an authorised `addServiceProvider` returns exactly the stored name and key |
| GoProperties.IssueOverwrites | identity_chaincode.go:124-134 | issuing the same id twice keeps only the second record |
| GoProperties.AuthorityStable | identity_chaincode.go:56-75 | no sequence of invocations changes the authority key |
| GoProperties.AuthorityAfterInit | identity_chaincode.go:120-122 | after `Init` by `a`, the authority check passes for `a` and for nobody else, after any calls |
| GoProperties.RunKeepsWellFormed | identity_chaincode.go:124-134 | every sequence of invocations keeps each namespace holding its own kind of record |
| GoProperties.OutsidersWriteNothing | identity_chaincode.go:186-188 | invocations by organisations other than the authority leave the ledger unchanged |
| GoProperties.GrantRecordsNothing | identity_chaincode.go:297-353 | a grant request, whatever its arguments, leaves every user's record, permissions included, as it was |
| GoProperties.GrantScenario | identity_chaincode.go:289-354 | authority issues alice and registers B; B's valid signature is accepted; alice's permissions stay empty |
| GoProperties.UnauthorizedIssue | identity_chaincode.go:120-122 | a non-authority `issueIdentity` fails "You are not authorized" and writes nothing |
| JsChaincode.Init | identity_chaincode.js:8-15 | stores the caller's MSP id as the authority and changes no other key |
| JsChaincode.GetCreatorIdentityAsWritten | identity_chaincode.js:36-44 | as written it never throws: it returns the stored authority, or an empty payload exactly when none is stored; writes nothing |
| JsChaincode.GetCreatorIdentity | identity_chaincode.js:36-44 | as intended: throws "Creator identity not found" exactly when the stored authority reads as empty, otherwise returns it |
| JsChaincode.IssueIdentity | identity_chaincode.js:46-62 | fewer than 3 arguments or an occupied id throws with nothing written; otherwise stores `{publicKey, metaDataHash}` and changes no other key |
| JsChaincode.SetMetaDataHash | identity_chaincode.js:69-82 | a missing user throws before the authority is checked; a non-authority throws; otherwise only the hash changes |
| JsChaincode.UpdateUserMetaDataHashAsDeclared | identity_chaincode.js:64-66 | the handler as declared throws on every call and writes nothing |
| JsChaincode.UpdateUserMetaDataHashWithParams | identity_chaincode.js:64-83 | with parameters and the `< 1` check: a missing user throws before a non-authority does, a thrown call writes nothing, no event is emitted; it succeeds for any existing user and the authority, changes only that user's key, and stores `undefined` as the hash when given one argument |
| JsChaincode.UpdateUserMetaDataHash | identity_chaincode.js:64-83 | the corrected handler needs both arguments; on success the key is kept and the hash is the given one, and no other key changes |
| JsChaincode.GetIdentityAsWritten | identity_chaincode.js:85-97 | as written it throws only for a missing argument; it returns the stored user, or an empty payload exactly when there is none |
| JsChaincode.GetIdentity | identity_chaincode.js:85-97 | as intended: needs an argument; throws 'User not found' exactly when the record reads as empty, otherwise returns it |
| JsChaincode.AddServiceProvider | identity_chaincode.js:99-119 | arguments, then authority, then a free id; on success stores `{name, publicKey}` and no other key changes |
| JsChaincode.GetServiceProviderAsWritten | identity_chaincode.js:121-133 | as written it throws only for a missing argument; it returns the stored record, or an empty payload exactly when there is none |
| JsChaincode.GetServiceProvider | identity_chaincode.js:121-133 | as intended: needs an argument; throws 'Service provider not found' exactly when the record reads as empty, otherwise returns it |
| JsChaincode.RequestAccess | identity_chaincode.js:135-169 | never writes; the errors come in source order (unparsable JSON, missing user, a `null` message, a message not granting the caller, missing provider, a rejected signature); in a well-formed ledger it succeeds exactly when the message grants access to the caller, user and provider exist and the library accepts the signature; success emits the provider's key and the caller's id |
| JsChaincode.Respond | identity_chaincode.js:26-32 | a returned value becomes a success response with that payload, a thrown error an error response |
| JsChaincode.Invoke | identity_chaincode.js:17-33 | as written: unknown names fail; `Init` is reachable and makes the caller the authority; `updateUserMetaDataHash` always fails; the three reads never report a missing record; only `Init`, `issueIdentity` and `addServiceProvider` change the ledger, and only `Init` changes the authority; well-formedness is kept |
| JsChaincode.Dispatch | identity_chaincode.js:19-32 | dispatch to the transaction handlers: failures write nothing, only writers change the ledger, the authority key never changes |
| JsChaincode.InvokeFixed | identity_chaincode.js:17-33 | corrected dispatch, with the reads as intended: no call changes the authority; a non-authority call never alters or removes a stored record |
| JsProperties.InitThenGetCreator | identity_chaincode.js:10-43 | `getCreatorIdentity` after `Init` returns the initialiser's MSP id, and reports "not found" when that id is empty |
| JsProperties.IssueThenGet | identity_chaincode.js:55-96 | `getIdentity` after `issueIdentity` of a free id returns the issued record |
| JsProperties.IssueRejectsDuplicate | identity_chaincode.js:57-61 | a second issue of the same id throws 'ID already exists' and leaves the first record |
| JsProperties.IssueIgnoresCaller | identity_chaincode.js:46-62 | `issueIdentity` gives the same result for every caller |
| JsProperties.AddThenGetServiceProvider | identity_chaincode.js:99-133 | `getServiceProvider` after an authorised `addServiceProvider` of a free id returns exactly the stored name and key |
| JsProperties.MissingCreatorReadsEmpty | identity_chaincode.js:36-44 | on an uninitialised ledger, the as-written `getCreatorIdentity` succeeds with an empty payload, and the intended one reports "not found" |
| JsProperties.MissingUserReadsEmpty | identity_chaincode.js:85-97 | `getIdentity` of a user never issued succeeds with an empty payload as written, and reports "User not found" as intended |
| JsProperties.MissingProviderReadsEmpty | identity_chaincode.js:121-133 | `getServiceProvider` of an unregistered id succeeds with an empty payload as written, and reports "Service provider not found" as intended |
| JsProperties.AddServiceProviderRejectsDuplicate | identity_chaincode.js:111-115 | a second registration of the same id throws and keeps the first record |
| JsProperties.InitTakeover | identity_chaincode.js:19-27 | through the as-written `Invoke`, organisation C replaces authority A and can then register providers |
| JsProperties.AuthorityStableWithoutInit | identity_chaincode.js:17-33 | through the as-written `Invoke`, a sequence of calls none of which is named `Init` leaves the authority key as it was, so `Init` is the only way to take it over |
| JsProperties.AuthorityStable | identity_chaincode.js:17-33 | through the corrected dispatch no sequence of calls changes the authority key |
| JsProperties.AuthorityAfterInit | identity_chaincode.js:104 | through the corrected dispatch, after `Init` by `a`, the authority check passes for `a` and for nobody else, after any calls |
| JsProperties.RunKeepsWellFormed | identity_chaincode.js:58-112 | through the corrected dispatch, every sequence of calls keeps each namespace holding its own kind of record |
| JsProperties.OutsidersOnlyAdd | identity_chaincode.js:57-58 | through the corrected dispatch, calls by non-authorities never alter or remove a stored record (as written they can, by calling `Init`) |
| JsProperties.UpdateAsDeclaredNeverSucceeds | identity_chaincode.js:64-66 | through `Invoke`, `updateUserMetaDataHash` fails with a ReferenceError on every input |
| JsProperties.UpdateWithParamsSucceeds | identity_chaincode.js:69-76 | with its parameters, the authority updates alice's hash and keeps her key |
| JsProperties.OneArgumentErasesHash | identity_chaincode.js:65-76 | a one-argument update passes the check and stores alice without a hash |
| JsProperties.HashesStayDefined | identity_chaincode.js:75-76 | through the corrected dispatch, a stored user never loses its hash |
| JsProperties.GrantScenario | identity_chaincode.js:135-169 | authority issues alice and registers B; B's accepted request emits `grantAccess` with B's key and id, and the ledger is unchanged |

## Findings

| source | as written | input that shows it | evidently intended | confidence | as-written member | corrected member |
|---|---|---|---|---|---|---|
| identity_chaincode.js:19-27 | `this[ret.fcn]` finds every method of the object, including `Init`, which overwrites the authority | any organisation C invokes `Init` through `Invoke` while A is the authority | only the transaction handlers are dispatched, so the authority stays as set at instantiation | not executed; medium, relies on the platform passing an invoke named "Init" to `Invoke`, and on the shim accepting the `shim.success()` response that `Init` returns as the payload of a second `shim.success` (js:27-28), so that the write commits | JsProperties.InitTakeover | JsChaincode.InvokeFixed |
| identity_chaincode.js:64-66 | `updateUserMetaDataHash()` declares no parameters, so `args.length` throws a ReferenceError | any call, e.g. `["alice", "h2"]` by the authority | `updateUserMetaDataHash(stub, args)` like the other handlers | not executed; high | JsProperties.UpdateAsDeclaredNeverSucceeds | JsChaincode.UpdateUserMetaDataHashWithParams |
| identity_chaincode.js:65 | `args.length < 1` lets one argument through, and `args[1]` is then `undefined`, which `JSON.stringify` drops | `["alice"]` by the authority | `args.length < 2`, as the message "Hash and ID missing" says | not executed; high | JsProperties.OneArgumentErasesHash | JsChaincode.UpdateUserMetaDataHash |
| identity_chaincode.js:39 | `!creatorIdentity` tests the buffer `getState` returns, which is an object and so always truthy | `getCreatorIdentity` before any `Init` | throw "Creator identity not found" when nothing is stored, e.g. by testing `creatorIdentity.toString()` as the other handlers do | not executed; medium, relies on the shim returning an empty buffer for an absent key | JsProperties.MissingCreatorReadsEmpty | JsChaincode.GetCreatorIdentity |
| identity_chaincode.js:92 | `!user` is never true for a buffer | `getIdentity` with `["bob"]` when no `user_bob` is stored | throw "User not found" | not executed; medium, relies on the shim returning an empty buffer for an absent key | JsProperties.MissingUserReadsEmpty | JsChaincode.GetIdentity |
| identity_chaincode.js:128 | `!sp` is never true for a buffer | `getServiceProvider` with `["B"]` when no `sp_B` is stored | throw "Service provider not found" | not executed; medium, relies on the shim returning an empty buffer for an absent key | JsProperties.MissingProviderReadsEmpty | JsChaincode.GetServiceProvider |

For the first finding, `JsProperties.AuthorityStable` proves the intended property of
`JsChaincode.InvokeFixed`, and `JsProperties.AuthorityStableWithoutInit` shows that in the
code as written `Init` is the only route to the authority key. For the second, `JsProperties.UpdateWithParamsSucceeds` shows
that the handler with its parameters can succeed. For the third,
`JsProperties.HashesStayDefined` proves that no stored user loses its hash.
For the last three, the contracts of the intended read handlers state the "not found"
cases, and each counterexample lemma also shows the intended handler rejecting the input.
`JsChaincode.InvokeFixed` dispatches to the corrected `JsChaincode.UpdateUserMetaDataHash`
and to the intended read handlers.
`JsChaincode.Run` and the properties about sequences of calls use `InvokeFixed`.

## Left out

- The Fabric shim is not modelled: `GetCreator`, the protobuf decoding of the creator, `shim.Start`/`main`, `console.log` and async/await. The caller's MSP id is an input.
- Storage failures are not modelled. The ledger is a total map, so the "An error occured" branches after `GetState`, `PutState`, `GetCreator` and `json.Marshal` never arise. The same holds for the read errors that Go ignores (identity_chaincode.go:190, 297).
- JSON is not modelled as text. Records are datatypes that stand for their serialisation. If a user key held a record of another kind, Go (`json.Unmarshal`) and JavaScript (`JSON.parse`, js:74 and js:157) would decode it leniently, but the model treats it as a decode failure. `WellFormed`, which every invocation preserves, rules that state out.
- Keccak-256, `crypto.Ecrecover`, `ethGSV.verify` and JavaScript `JSON.parse` of the request arguments are function parameters. This is because they are foreign code.
- GoChaincode.RequestAccess: the panic of `hexutil.MustDecode` is an error response (`DecodePanic`). What a panic does to the chaincode process is not modelled.
- JsChaincode.Invoke: names inherited from `Object.prototype`, such as `toString` or `constructor`, are treated as unknown methods. The payload that `Init` returns through `Invoke` is modelled as empty.
- The intended JavaScript read handlers treat a stored empty string like an absent key, because both read back as an empty buffer.
- GoChaincode.TrimLeftChars: a Dafny `char` stands for one rune. Go's byte offsets into UTF-8 strings are not modelled, and they do not matter for the ASCII hex strings it is applied to.
- Storing an empty org id as the authority is modelled as storing the empty string. The ledger platform's handling of empty values is not modelled.
- Permission appending, an `AlreadyGranted` outcome and an authority check on JavaScript `issueIdentity` do not exist in either version, so they are not modelled.
- Error messages are an enumeration of error kinds, not strings.

=== FILE: base.dfy ===
/** Small vocabulary shared by every other module of the model. */
module Base {

  /** An optional value; `None` stands for Go's nil slice and JavaScript's missing value. */
  datatype Option<+T> = None | Some(value: T)

  /** One octet, as stored in Go's `[]byte`. */
  type Byte = b: int | 0 <= b < 256
}

=== FILE: go_chaincode.dfy ===
/**
 The Go chaincode (identity_chaincode.go): every handler is a pure function from the
 ledger, the caller's MSP id and the string arguments to a response and the new ledger.
 Keccak-256 and public-key recovery are left abstract as the fields of `Crypto`.
 */
module GoChaincode {
  import opened Base
  import opened Keys
  import opened Store
  import Hex

  /**
   `Permissions` is a JSON list. The handlers only ever write it as Go's nil slice,
   which `json.Marshal` serialises as `null`; `[]` stands for that nil slice.
   */
  datatype User = User(publicKey: string, metadataHash: string, permissions: seq<string>)

  type Ledger = Store.Ledger<User>

  /**
   Error responses by message: `ErrorOccurred` is the source's catch-all "An error occured",
   `DecodePanic` is the panic of `hexutil.MustDecode` on a malformed signature.
   */
  datatype Error =
    | IncorrectArgCount
    | NotAuthorized
    | IdentityNotYetStored
    | InvalidFunctionName(name: string)
    | ErrorOccurred
    | PublicKeyRecoveryFailed
    | SignatureInvalid
    | DecodePanic

  /** `shim.Success(payload)`, where `None` is a nil payload, or `shim.Error(message)`. */
  datatype Response = Success(payload: Option<Value<User>>) | Failure(error: Error)

  datatype Step = Step(response: Response, ledger: Ledger)

  /**
   The foreign cryptography: Keccak-256 over the bytes of a message string, and
   `crypto.Ecrecover(hash, signature)`, which yields the signer's public key or fails.
   */
  datatype Crypto = Crypto(
    keccak256: string -> seq<Byte>,
    ecrecover: (seq<Byte>, seq<Byte>) -> Option<seq<Byte>>)

  /** The function names `Invoke` dispatches; `Init` is a separate entry point. */
  const Functions: set<string> := {
    "getCreatorIdentity", "issueIdentity", "getIdentity", "updateUserMetadataHash",
    "addServiceProvider", "getServiceProvider", "requestAccess"
  }

  /** The dispatched functions that may write to the ledger. */
  const Writers: set<string> := {"issueIdentity", "updateUserMetadataHash", "addServiceProvider"}

  /** Stores the caller's MSP id as the identity authority, replacing any earlier one. */
  function Init(l: Ledger, caller: string): (r: Step)
    ensures r.response == Success(None)
    ensures StoredAuthority(r.ledger) == caller
    ensures AuthorityKey in r.ledger && r.ledger[AuthorityKey] == Raw(caller)
    ensures OnlyKeyChanged(l, r.ledger, AuthorityKey)
    ensures WellFormed(l) ==> WellFormed(r.ledger)
  {
    ClassifyAuthorityKey();
    Step(Success(None), l[AuthorityKey := Raw(caller)])
  }

  /** Returns the stored authority bytes; it ignores its arguments. */
  function GetCreatorIdentity(l: Ledger, args: seq<string>): (r: Step)
    ensures r.ledger == l
    ensures r.response.Failure? <==> AuthorityKey !in l
    ensures r.response.Failure? ==> r.response.error == IdentityNotYetStored
    ensures r.response.Success? ==> r.response.payload == Some(l[AuthorityKey])
  {
    if AuthorityKey !in l then Step(Failure(IdentityNotYetStored), l)
    else Step(Success(Some(l[AuthorityKey])), l)
  }

  /**
   Authority-only: stores a fresh user with an empty permission list under
   `user_<args[0]>`, overwriting any user already there.
   */
  function IssueIdentity(l: Ledger, caller: string, args: seq<string>): (r: Step)
    ensures |args| != 3 ==> r == Step(Failure(IncorrectArgCount), l)
    ensures |args| == 3 && !Authorized(l, caller) ==> r == Step(Failure(NotAuthorized), l)
    ensures r.response.Success? <==> |args| == 3 && Authorized(l, caller)
    ensures r.response.Success? ==>
      && r.response.payload == None
      && LoadUser(r.ledger, args[0]) == Some(User(args[1], args[2], []))
      && OnlyKeyChanged(l, r.ledger, UserKey(args[0]))
    ensures Agree(l, r.ledger, AuthorityKey)
    ensures WellFormed(l) ==> WellFormed(r.ledger)
  {
    if |args| != 3 then Step(Failure(IncorrectArgCount), l)
    else if StoredAuthority(l) != caller then Step(Failure(NotAuthorized), l)
    else
      var key := UserKey(args[0]);
      KeysDistinct(args[0], args[0]);
      ClassifyUserKey(args[0]);
      Step(Success(None), l[key := UserDoc(User(args[1], args[2], []))])
  }

  /** Public read of `user_<args[0]>`; a missing user is a success with an empty payload. */
  function GetIdentity(l: Ledger, args: seq<string>): (r: Step)
    ensures r.ledger == l
    ensures r.response.Failure? <==> |args| != 1
    ensures r.response.Failure? ==> r.response.error == IncorrectArgCount
    ensures r.response.Success? ==>
      (r.response.payload.Some? <==> UserKey(args[0]) in l)
      && (r.response.payload.Some? ==> r.response.payload.value == l[UserKey(args[0])])
  {
    if |args| != 1 then Step(Failure(IncorrectArgCount), l)
    else
      var key := UserKey(args[0]);
      Step(Success(if key in l then Some(l[key]) else None), l)
  }

  /**
   Authority-only: replaces the metadata hash of an existing user. A missing user fails
   because deserialising the nil read fails; nothing is written on any failure.
   */
  function UpdateUserMetadataHash(l: Ledger, caller: string, args: seq<string>): (r: Step)
    ensures |args| != 2 ==> r == Step(Failure(IncorrectArgCount), l)
    ensures |args| == 2 && !Authorized(l, caller) ==> r == Step(Failure(NotAuthorized), l)
    ensures |args| == 2 && Authorized(l, caller) && LoadUser(l, args[0]).None? ==>
      r == Step(Failure(ErrorOccurred), l)
    ensures r.response.Success? <==> |args| == 2 && Authorized(l, caller) && LoadUser(l, args[0]).Some?
    ensures r.response.Success? ==>
      var before := LoadUser(l, args[0]).value;
      && r.response.payload == None
      && LoadUser(r.ledger, args[0]) == Some(User(before.publicKey, args[1], before.permissions))
      && OnlyKeyChanged(l, r.ledger, UserKey(args[0]))
    ensures Agree(l, r.ledger, AuthorityKey)
    ensures WellFormed(l) ==> WellFormed(r.ledger)
  {
    if |args| != 2 then Step(Failure(IncorrectArgCount), l)
    else if StoredAuthority(l) != caller then Step(Failure(NotAuthorized), l)
    else match LoadUser(l, args[0])
      case None => Step(Failure(ErrorOccurred), l)
      case Some(user) =>
        KeysDistinct(args[0], args[0]);
        ClassifyUserKey(args[0]);
        Step(Success(None), l[UserKey(args[0]) := UserDoc(user.(metadataHash := args[1]))])
  }

  /** Authority-only: stores `{name, publicKey}` under `sp_<args[0]>`, overwriting. */
  function AddServiceProvider(l: Ledger, caller: string, args: seq<string>): (r: Step)
    ensures |args| != 3 ==> r == Step(Failure(IncorrectArgCount), l)
    ensures |args| == 3 && !Authorized(l, caller) ==> r == Step(Failure(NotAuthorized), l)
    ensures r.response.Success? <==> |args| == 3 && Authorized(l, caller)
    ensures r.response.Success? ==>
      && r.response.payload == None
      && LoadSp(r.ledger, args[0]) == Some(ServiceProvider(args[1], args[2]))
      && OnlyKeyChanged(l, r.ledger, SpKey(args[0]))
    ensures Agree(l, r.ledger, AuthorityKey)
    ensures WellFormed(l) ==> WellFormed(r.ledger)
  {
    if |args| != 3 then Step(Failure(IncorrectArgCount), l)
    else if StoredAuthority(l) != caller then Step(Failure(NotAuthorized), l)
    else
      KeysDistinct(args[0], args[0]);
      ClassifySpKey(args[0]);
      Step(Success(None), l[SpKey(args[0]) := SpDoc(ServiceProvider(args[1], args[2]))])
  }

  /** Public read of `sp_<args[0]>`; a missing record is a success with an empty payload. */
  function GetServiceProvider(l: Ledger, args: seq<string>): (r: Step)
    ensures r.ledger == l
    ensures r.response.Failure? <==> |args| != 1
    ensures r.response.Failure? ==> r.response.error == IncorrectArgCount
    ensures r.response.Success? ==>
      (r.response.payload.Some? <==> SpKey(args[0]) in l)
      && (r.response.payload.Some? ==> r.response.payload.value == l[SpKey(args[0])])
  {
    if |args| != 1 then Step(Failure(IncorrectArgCount), l)
    else
      var key := SpKey(args[0]);
      Step(Success(if key in l then Some(l[key]) else None), l)
  }

  /**
   The rune loop of `trimLeftChars` from rune `m` on: it returns the rest of `s` at the
   first rune index that has reached `n`, and the empty string when the runes run out.
   */
  function TrimFrom(s: string, n: int, m: nat): (r: string)
    requires m <= |s|
    ensures r == if n <= m then s[m..] else if n < |s| then s[n..] else ""
    decreases |s| - m
  {
    if m == |s| then ""
    else if m >= n then s[m..]
    else TrimFrom(s, n, m + 1)
  }

  /** `trimLeftChars(s, n)`: drops the first `n` runes of `s` (a `char` is one rune here). */
  function TrimLeftChars(s: string, n: int): (r: string)
    ensures n <= 0 ==> r == s
    ensures 0 <= n < |s| ==> r == s[n..]
    ensures |s| <= n ==> r == ""
    ensures |r| <= |s| && r == s[|s| - |r|..]
  {
    TrimFrom(s, n, 0)
  }

  const GrantPrefix: string := "{\"action\":\"grantAccess\",\"to\":\""
  const GrantSuffix: string := "\"}"

  /**
   The message a user signs to grant access to organisation `org`: the org id sits
   between the fixed JSON prefix and suffix.
   */
  function GrantMessage(org: string): (r: string)
    ensures GrantPrefix <= r
    ensures |r| == |GrantPrefix| + |org| + |GrantSuffix|
    ensures r[|GrantPrefix|..|r| - |GrantSuffix|] == org
    ensures r[|r| - |GrantSuffix|..] == GrantSuffix
  {
    GrantPrefix + org + GrantSuffix
  }

  /**
   The recovered key, without its leading format byte, is the claimed key. This is what
   comparing the hex of the stored key with the recovered key's hex minus two
   characters decides; an empty recovered key trims to the empty string.
   */
  predicate KeyMatches(claimed: seq<Byte>, recovered: seq<Byte>)
  {
    if |recovered| == 0 then claimed == [] else claimed == recovered[1..]
  }

  /**
   The signature check on bytes: the stored key and the 0x-prefixed signature decode,
   the key recovered from the Keccak-256 hash of the grant message for `org` exists,
   and it matches the stored key.
   */
  predicate SignatureAccepted(crypto: Crypto, org: string, signature: string, storedKey: string)
  {
    && Hex.Decode(storedKey).Some?
    && Hex.PrefixedDecode(signature).Some?
    && var recovered := crypto.ecrecover(crypto.keccak256(GrantMessage(org)), Hex.PrefixedDecode(signature).value);
    && recovered.Some?
    && KeyMatches(Hex.Decode(storedKey).value, recovered.value)
  }

  /** When `requestAccess` answers with success. */
  predicate AccessGranted(l: Ledger, caller: string, args: seq<string>, crypto: Crypto)
  {
    && |args| == 2
    && LoadUser(l, args[0]).Some?
    && LoadSp(l, caller).Some?
    && SignatureAccepted(crypto, caller, args[1], LoadUser(l, args[0]).value.publicKey)
  }

  /** Trimming two hex characters off an encoded key drops its first byte. */
  lemma TrimEncodedKey(recovered: seq<Byte>)
    ensures TrimLeftChars(Hex.Encode(recovered), 2) == Hex.Encode(if |recovered| == 0 then [] else recovered[1..])
  {
    if |recovered| > 0 {
      Hex.EncodeTail(recovered);
    }
  }

  /** Comparing hex strings after trimming decides `KeyMatches` on the bytes. */
  lemma {:induction false} HexKeyComparison(claimed: seq<Byte>, recovered: seq<Byte>)
    ensures Hex.Encode(claimed) == TrimLeftChars(Hex.Encode(recovered), 2) <==> KeyMatches(claimed, recovered)
  {
    var expected: seq<Byte> := if |recovered| == 0 then [] else recovered[1..];
    TrimEncodedKey(recovered);
    assert KeyMatches(claimed, recovered) <==> claimed == expected;
    if Hex.Encode(claimed) == Hex.Encode(expected) {
      Hex.EncodeInjective(claimed, expected);
    }
  }

  /**
   Verifies that the caller, a registered service provider, holds a signature by the
   user's key over the grant message naming the caller. It writes nothing on any path,
   so a successful request does not record a permission.
   */
  function RequestAccess(l: Ledger, caller: string, args: seq<string>, crypto: Crypto): (r: Step)
    ensures r.ledger == l
    ensures |args| != 2 ==> r.response == Failure(IncorrectArgCount)
    ensures |args| == 2 && LoadUser(l, args[0]).None? ==> r.response == Failure(ErrorOccurred)
    ensures |args| == 2 && LoadUser(l, args[0]).Some? && LoadSp(l, caller).None? ==>
      r.response == Failure(ErrorOccurred)
    ensures (|args| == 2 && LoadUser(l, args[0]).Some? && LoadSp(l, caller).Some?
             && Hex.Decode(LoadUser(l, args[0]).value.publicKey).None?)
      ==> r.response == Failure(ErrorOccurred)
    ensures (|args| == 2 && LoadUser(l, args[0]).Some? && LoadSp(l, caller).Some?
             && Hex.Decode(LoadUser(l, args[0]).value.publicKey).Some? && Hex.PrefixedDecode(args[1]).None?)
      ==> r.response == Failure(DecodePanic)
    // Past the decoding, a failed key recovery and a key that does not match have errors of their own.
    ensures (|args| == 2 && LoadUser(l, args[0]).Some? && LoadSp(l, caller).Some?
             && Hex.Decode(LoadUser(l, args[0]).value.publicKey).Some? && Hex.PrefixedDecode(args[1]).Some?)
      ==>
      var stored := Hex.Decode(LoadUser(l, args[0]).value.publicKey).value;
      var recovered := crypto.ecrecover(crypto.keccak256(GrantMessage(caller)), Hex.PrefixedDecode(args[1]).value);
      && (recovered.None? ==> r.response == Failure(PublicKeyRecoveryFailed))
      && (recovered.Some? && !KeyMatches(stored, recovered.value) ==> r.response == Failure(SignatureInvalid))
    ensures r.response.Success? <==> AccessGranted(l, caller, args, crypto)
    ensures r.response.Success? ==> r.response.payload == None
  {
    if |args| != 2 then Step(Failure(IncorrectArgCount), l)
    else match LoadUser(l, args[0])
      case None => Step(Failure(ErrorOccurred), l)
      case Some(user) =>
        match LoadSp(l, caller)
        case None => Step(Failure(ErrorOccurred), l)
        case Some(_) =>
          match Hex.Decode(user.publicKey)
          case None => Step(Failure(ErrorOccurred), l)
          case Some(publicKeyBytes) =>
            var hash := crypto.keccak256(GrantMessage(caller));
            match Hex.PrefixedDecode(args[1])
            case None => Step(Failure(DecodePanic), l)
            case Some(signature) =>
              match crypto.ecrecover(hash, signature)
              case None => Step(Failure(PublicKeyRecoveryFailed), l)
              case Some(sigPublicKey) =>
                HexKeyComparison(publicKeyBytes, sigPublicKey);
                if Hex.Encode(publicKeyBytes) != TrimLeftChars(Hex.Encode(sigPublicKey), 2) then
                  Step(Failure(SignatureInvalid), l)
                else
                  Step(Success(None), l)
  }

  /**
   Dispatches by function name. Only the authority can change the ledger, no call
   touches the authority key, and a failed call writes nothing.
   */
  function Invoke(l: Ledger, caller: string, fn: string, args: seq<string>, crypto: Crypto): (r: Step)
    ensures fn !in Functions ==> r == Step(Failure(InvalidFunctionName(fn)), l)
    ensures r.response.Failure? ==> r.ledger == l
    ensures r.ledger != l ==> fn in Writers && Authorized(l, caller)
    ensures Agree(l, r.ledger, AuthorityKey)
    ensures WellFormed(l) ==> WellFormed(r.ledger)
  {
    if fn == "getCreatorIdentity" then GetCreatorIdentity(l, args)
    else if fn == "issueIdentity" then IssueIdentity(l, caller, args)
    else if fn == "getIdentity" then GetIdentity(l, args)
    else if fn == "updateUserMetadataHash" then UpdateUserMetadataHash(l, caller, args)
    else if fn == "addServiceProvider" then AddServiceProvider(l, caller, args)
    else if fn == "getServiceProvider" then GetServiceProvider(l, args)
    else if fn == "requestAccess" then RequestAccess(l, caller, args, crypto)
    else Step(Failure(InvalidFunctionName(fn)), l)
  }

  /** The ledger after a sequence of invocations. */
  function Run(l: Ledger, calls: seq<Call>, crypto: Crypto): Ledger
    decreases |calls|
  {
    if |calls| == 0 then l
    else Run(Invoke(l, calls[0].caller, calls[0].fn, calls[0].args, crypto).ledger, calls[1..], crypto)
  }
}

=== FILE: go_properties.dfy ===
/** Properties of the Go chaincode that relate several calls. */
module GoProperties {
  import opened Base
  import opened Keys
  import opened Store
  import opened GoChaincode
  import Hex

  /**
   The grant message names exactly one organisation: a signature over the message
   for one org id is never a signature over the message for another.
   */
  lemma {:induction false} GrantMessageInjective(a: string, b: string)
    requires GrantMessage(a) == GrantMessage(b)
    ensures a == b
  {
    var m := GrantMessage(a);
    assert |a| == |b|;
    assert a == m[|GrantPrefix|..|GrantPrefix| + |a|];
    assert b == m[|GrantPrefix|..|GrantPrefix| + |b|];
  }

  /** `getCreatorIdentity` after `Init` returns the initialiser's MSP id. */
  lemma InitThenGetCreator(l: GoChaincode.Ledger, caller: string, args: seq<string>)
    ensures GetCreatorIdentity(Init(l, caller).ledger, args).response == Success(Some(Raw(caller)))
  {
  }

  /** `getIdentity` after a successful `issueIdentity` returns the issued record. */
  lemma IssueThenGet(l: GoChaincode.Ledger, caller: string, id: string, publicKey: string, hash: string)
    requires Authorized(l, caller)
    ensures
      var issued := IssueIdentity(l, caller, [id, publicKey, hash]);
      && issued.response == Success(None)
      && GetIdentity(issued.ledger, [id]).response == Success(Some(UserDoc(User(publicKey, hash, []))))
  {
  }

  /** `getServiceProvider` after a successful `addServiceProvider` returns the new record. */
  lemma AddThenGetServiceProvider(l: GoChaincode.Ledger, caller: string, id: string, name: string, pk: string)
    requires Authorized(l, caller)
    ensures
      var added := AddServiceProvider(l, caller, [id, name, pk]);
      && added.response == Success(None)
      && GetServiceProvider(added.ledger, [id]).response == Success(Some(SpDoc(ServiceProvider(name, pk))))
  {
  }

  /**
   Issuing an id twice keeps only the second record: the Go handler has no
   existence check, so it overwrites, and it resets the permission list.
   */
  lemma IssueOverwrites(l: GoChaincode.Ledger, caller: string, id: string, pk1: string, h1: string, pk2: string, h2: string)
    requires Authorized(l, caller)
    ensures
      var first := IssueIdentity(l, caller, [id, pk1, h1]).ledger;
      var second := IssueIdentity(first, caller, [id, pk2, h2]);
      && second.response == Success(None)
      && LoadUser(second.ledger, id) == Some(User(pk2, h2, []))
  {
    var first := IssueIdentity(l, caller, [id, pk1, h1]).ledger;
    assert Agree(l, first, AuthorityKey);
  }

  /** No sequence of invocations changes the authority key. */
  lemma {:induction false} AuthorityStable(l: GoChaincode.Ledger, calls: seq<Call>, crypto: Crypto)
    ensures Agree(l, Run(l, calls, crypto), AuthorityKey)
    decreases |calls|
  {
    if |calls| > 0 {
      var next := Invoke(l, calls[0].caller, calls[0].fn, calls[0].args, crypto).ledger;
      AuthorityStable(next, calls[1..], crypto);
    }
  }

  /**
   After `Init` by `a`, for the rest of the deployment the authority check passes
   for `a` and for nobody else.
   */
  lemma AuthorityAfterInit(l: GoChaincode.Ledger, a: string, calls: seq<Call>, crypto: Crypto, x: string)
    ensures Authorized(Run(Init(l, a).ledger, calls, crypto), x) <==> x == a
  {
    AuthorityStable(Init(l, a).ledger, calls, crypto);
  }

  /** Invocations keep every key in its namespace holding the right kind of record. */
  lemma {:induction false} RunKeepsWellFormed(l: GoChaincode.Ledger, calls: seq<Call>, crypto: Crypto)
    requires WellFormed(l)
    ensures WellFormed(Run(l, calls, crypto))
    decreases |calls|
  {
    if |calls| > 0 {
      var next := Invoke(l, calls[0].caller, calls[0].fn, calls[0].args, crypto).ledger;
      RunKeepsWellFormed(next, calls[1..], crypto);
    }
  }

  /** A sequence of invocations none of which comes from the authority changes nothing. */
  lemma {:induction false} OutsidersWriteNothing(l: GoChaincode.Ledger, calls: seq<Call>, crypto: Crypto)
    requires forall i :: 0 <= i < |calls| ==> calls[i].caller != StoredAuthority(l)
    ensures Run(l, calls, crypto) == l
    decreases |calls|
  {
    if |calls| > 0 {
      var next := Invoke(l, calls[0].caller, calls[0].fn, calls[0].args, crypto).ledger;
      assert next == l;
      OutsidersWriteNothing(next, calls[1..], crypto);
    }
  }

  /**
   A grant request leaves every user's record as it was: even when the signature is
   accepted, no permission is added to anyone.
   */
  lemma GrantRecordsNothing(l: GoChaincode.Ledger, caller: string, args: seq<string>, crypto: Crypto)
    ensures forall id :: LoadUser(RequestAccess(l, caller, args, crypto).ledger, id) == LoadUser(l, id)
  {
  }

  /**
   The end-to-end scenario: authority `A` issues "alice" with key bytes `pk`, registers
   service provider `B`, and `B` presents a signature from which the key `04 || pk` is
   recovered; the request succeeds, and alice's permission list is still empty.
   */
  lemma {:induction false} GrantScenario(l: GoChaincode.Ledger, pk: seq<Byte>, sig: seq<Byte>, crypto: Crypto)
    requires crypto.ecrecover(crypto.keccak256(GrantMessage("B")), sig) == Some([4] + pk)
    ensures
      var l1 := Init(l, "A").ledger;
      var l2 := IssueIdentity(l1, "A", ["alice", Hex.Encode(pk), "h1"]).ledger;
      var l3 := AddServiceProvider(l2, "A", ["B", "Provider B", "spkey"]).ledger;
      var granted := Invoke(l3, "B", "requestAccess", ["alice", "0x" + Hex.Encode(sig)], crypto);
      && granted.response == Success(None)
      && GetIdentity(granted.ledger, ["alice"]).response == Success(Some(UserDoc(User(Hex.Encode(pk), "h1", []))))
  {
    var l1 := Init(l, "A").ledger;
    var l2 := IssueIdentity(l1, "A", ["alice", Hex.Encode(pk), "h1"]).ledger;
    var l3 := AddServiceProvider(l2, "A", ["B", "Provider B", "spkey"]).ledger;
    KeysDistinct("alice", "B");
    assert LoadUser(l3, "alice") == Some(User(Hex.Encode(pk), "h1", []));
    assert LoadSp(l3, "B").Some?;
    Hex.DecodeEncode(pk);
    Hex.PrefixedDecodeEncode(sig);
    assert ([4] + pk)[1..] == pk;
    assert AccessGranted(l3, "B", ["alice", "0x" + Hex.Encode(sig)], crypto);
  }

  /**
   The unauthorised scenario: after `Init` by `A`, organisation `C` cannot issue an
   identity and nothing is written.
   */
  lemma UnauthorizedIssue(l: GoChaincode.Ledger, id: string, publicKey: string, hash: string, crypto: Crypto)
    ensures
      var l1 := Init(l, "A").ledger;
      Invoke(l1, "C", "issueIdentity", [id, publicKey, hash], crypto) == Step(Failure(NotAuthorized), l1)
  {
  }
}

=== FILE: hex.dfy ===
/**
 Base16 as in section 8 of RFC 4648, the way Go's `encoding/hex` implements it:
 encoding emits lower-case digits, decoding accepts either case and fails on an odd
 length or a non-digit character. `PrefixedDecode` is go-ethereum's `hexutil.Decode`,
 which additionally demands a leading `0x` or `0X`.
 */
module Hex {
  import opened Base

  /** The digit for a value below 16, lower case (Go's `hextable`). */
  function Digit(v: nat): (c: char)
    requires v < 16
  {
    if v < 10 then ('0' as int + v) as char else ('a' as int + v - 10) as char
  }

  /** The value of one hex digit of either case, or `None` for any other character. */
  function DigitValue(c: char): (r: Option<nat>)
    ensures r.Some? ==> r.value < 16
  {
    if '0' <= c <= '9' then Some(c as int - '0' as int)
    else if 'a' <= c <= 'f' then Some(c as int - 'a' as int + 10)
    else if 'A' <= c <= 'F' then Some(c as int - 'A' as int + 10)
    else None
  }

  /** A digit `Encode` may emit: `0`-`9` or `a`-`f`. */
  predicate IsLowerDigit(c: char)
  {
    '0' <= c <= '9' || 'a' <= c <= 'f'
  }

  function EncodeByte(b: Byte): string
  {
    [Digit(b / 16), Digit(b % 16)]
  }

  /** `hex.EncodeToString`. */
  function Encode(bs: seq<Byte>): (s: string)
    ensures |s| == 2 * |bs|
    ensures forall i :: 0 <= i < |s| ==> IsLowerDigit(s[i])
  {
    if |bs| == 0 then "" else EncodeByte(bs[0]) + Encode(bs[1..])
  }

  /** `hex.DecodeString`: `None` on an odd length or an invalid digit. */
  function Decode(s: string): (r: Option<seq<Byte>>)
    ensures r.Some? <==> |s| % 2 == 0 && forall i :: 0 <= i < |s| ==> DigitValue(s[i]).Some?
    ensures r.Some? ==> |s| == 2 * |r.value|
  {
    if |s| == 0 then Some([])
    else if |s| == 1 then None
    else
      match (DigitValue(s[0]), DigitValue(s[1]), Decode(s[2..]))
      case (Some(hi), Some(lo), Some(rest)) =>
        var b: Byte := hi * 16 + lo;
        Some([b] + rest)
      case _ => None
  }

  /** `hexutil.Decode`: empty input and a missing `0x`/`0X` prefix are errors. */
  function PrefixedDecode(s: string): (r: Option<seq<Byte>>)
    ensures r.Some? <==> 2 <= |s| && s[0] == '0' && (s[1] == 'x' || s[1] == 'X') && Decode(s[2..]).Some?
    ensures r.Some? ==> r == Decode(s[2..])
  {
    if |s| == 0 then None
    else if !(|s| >= 2 && s[0] == '0' && (s[1] == 'x' || s[1] == 'X')) then None
    else Decode(s[2..])
  }

  function LowerDigit(c: char): char
  {
    if 'A' <= c <= 'F' then (c as int - 'A' as int + 'a' as int) as char else c
  }

  /** Lower-cases the hex letters of `s` and leaves every other character alone. */
  function Lower(s: string): (r: string)
    ensures |r| == |s|
  {
    if |s| == 0 then "" else [LowerDigit(s[0])] + Lower(s[1..])
  }

  lemma DigitRoundTrip(v: nat)
    requires v < 16
    ensures DigitValue(Digit(v)) == Some(v)
  {
  }

  lemma DigitOfValue(c: char)
    requires DigitValue(c).Some?
    ensures Digit(DigitValue(c).value) == LowerDigit(c)
  {
  }

  /** Decoding undoes encoding: every byte string survives the round trip. */
  lemma {:induction false} DecodeEncode(bs: seq<Byte>)
    ensures Decode(Encode(bs)) == Some(bs)
  {
    if |bs| > 0 {
      var s := Encode(bs);
      assert s == EncodeByte(bs[0]) + Encode(bs[1..]);
      assert s[2..] == Encode(bs[1..]);
      DigitRoundTrip(bs[0] / 16);
      DigitRoundTrip(bs[0] % 16);
      DecodeEncode(bs[1..]);
      assert bs == [bs[0]] + bs[1..];
    }
  }

  /** Encoding what was decoded gives the input back, with its hex letters in lower case. */
  lemma {:induction false} EncodeDecode(s: string)
    requires Decode(s).Some?
    ensures Encode(Decode(s).value) == Lower(s)
  {
    if |s| > 0 {
      var hi := DigitValue(s[0]).value;
      var lo := DigitValue(s[1]).value;
      var rest := Decode(s[2..]).value;
      var b: Byte := hi * 16 + lo;
      assert Decode(s).value == [b] + rest;
      assert b / 16 == hi && b % 16 == lo;
      DigitOfValue(s[0]);
      DigitOfValue(s[1]);
      EncodeDecode(s[2..]);
      assert ([b] + rest)[1..] == rest;
      assert Lower(s) == [LowerDigit(s[0])] + Lower(s[1..]);
      assert s[1..][1..] == s[2..];
      assert Lower(s[1..]) == [LowerDigit(s[1])] + Lower(s[2..]);
    }
  }

  /** Distinct byte strings have distinct encodings. */
  lemma EncodeInjective(a: seq<Byte>, b: seq<Byte>)
    requires Encode(a) == Encode(b)
    ensures a == b
  {
    DecodeEncode(a);
    DecodeEncode(b);
  }

  /** Dropping the first two hex characters drops the first byte. */
  lemma EncodeTail(bs: seq<Byte>)
    requires |bs| >= 1
    ensures Encode(bs)[2..] == Encode(bs[1..])
  {
    assert Encode(bs) == EncodeByte(bs[0]) + Encode(bs[1..]);
  }

  /** `hexutil.Decode` accepts exactly what `hexutil.Encode` produces. */
  lemma {:induction false} PrefixedDecodeEncode(bs: seq<Byte>)
    ensures PrefixedDecode("0x" + Encode(bs)) == Some(bs)
  {
    var s := "0x" + Encode(bs);
    assert s[2..] == Encode(bs);
    DecodeEncode(bs);
  }
}

=== FILE: js_chaincode.dfy ===
/**
 The JavaScript chaincode (identity_chaincode.js). Handlers either return a payload or
 throw; `Invoke` turns the first into a success response and the second into an error
 response. `JSON.parse` of the request arguments and the signature library are abstract.
 `getState` of an absent key yields an empty buffer: its `.toString()` is "", and the
 buffer itself is truthy, so the `!value` not-found checks of the three read handlers
 never fire. Those handlers are modelled as written and, separately, as intended.
 */
module JsChaincode {
  import opened Base
  import opened Keys
  import opened Store

  /**
   The stored user object `{publicKey, metaDataHash}`; `metaDataHash == None` is an
   object whose hash was set to `undefined`, which `JSON.stringify` leaves out.
   */
  datatype User = User(publicKey: string, metaDataHash: Option<string>)

  type Ledger = Store.Ledger<User>

  /** The errors the handlers throw, by message, and the runtime errors of the language. */
  datatype JsError =
    | ArgumentsMissing
    | IdAlreadyExists
    | UserNotFound
    | ServiceProviderNotFound
    | CreatorNotFound
    | NoPermission
    | PermissionInvalid
    | NoSuchMethod
    | ReferenceError
    | TypeError
    | SyntaxError

  /** How a handler ends: it returns a payload (`None` for `undefined`) or throws. */
  datatype Completion = Returned(payload: Option<Value<User>>) | Threw(error: JsError)

  /** The `grantAccess` chaincode event. */
  datatype GrantEvent = GrantEvent(publicKey: string, mspid: string)

  datatype Step = Step(completion: Completion, ledger: Ledger, event: Option<GrantEvent>)

  /** `shim.success(payload)` or `shim.error(err)`. */
  datatype Response = Ok(payload: Option<Value<User>>) | Fail(error: JsError)

  datatype Reply = Reply(response: Response, ledger: Ledger, event: Option<GrantEvent>)

  /**
   What `JSON.parse` makes of a request argument: a syntax error, `null`, or a value
   whose `action` and `to` properties are the given strings (`None` when absent or not
   a string) and whose `JSON.stringify` is `text`.
   */
  datatype Json = Malformed | Null | Parsed(action: Option<string>, to: Option<string>, text: string)

  /** The foreign runtime: `JSON.parse`, and `ethGSV.verify(message, signature, publicKey)`. */
  datatype Runtime = Runtime(parse: string -> Json, verify: (string, Json, string) -> bool)

  /** Stores `getCreator().mspid` as the identity authority. */
  function Init(l: Ledger, caller: string): (r: Step)
    ensures r.completion == Returned(None) && r.event == None
    ensures StoredAuthority(r.ledger) == caller
    ensures OnlyKeyChanged(l, r.ledger, AuthorityKey)
    ensures WellFormed(l) ==> WellFormed(r.ledger)
  {
    ClassifyAuthorityKey();
    Step(Returned(None), l[AuthorityKey := Raw(caller)], None)
  }

  /**
   What `getState(k)` resolves to, as a payload: the stored value, or the empty buffer
   (`None`) for an absent key.
   */
  function Read(l: Ledger, k: string): (r: Option<Value<User>>)
    ensures r.Some? <==> k in l
    ensures r.Some? ==> r.value == l[k]
  {
    if k in l then Some(l[k]) else None
  }

  /**
   `getCreatorIdentity` as written: `!creatorIdentity` is false for every buffer, so it
   returns whatever is stored, the empty buffer included, and never throws.
   */
  function GetCreatorIdentityAsWritten(l: Ledger): (r: Step)
    ensures r.ledger == l && r.event == None
    ensures r.completion.Returned?
    ensures r.completion.payload.Some? <==> AuthorityKey in l
    ensures r.completion.payload.Some? ==> r.completion.payload.value == l[AuthorityKey]
  {
    Step(Returned(Read(l, AuthorityKey)), l, None)
  }

  /**
   `getCreatorIdentity` as evidently intended: it throws 'Creator identity not found'
   when the stored authority reads as the empty string.
   */
  function GetCreatorIdentity(l: Ledger): (r: Step)
    ensures r.ledger == l && r.event == None
    ensures r.completion.Threw? <==> !HasText(l, AuthorityKey)
    ensures r.completion.Threw? ==> r.completion.error == CreatorNotFound
    ensures r.completion.Returned? ==> r.completion.payload == Some(l[AuthorityKey])
  {
    if !HasText(l, AuthorityKey) then Step(Threw(CreatorNotFound), l, None)
    else Step(Returned(Some(l[AuthorityKey])), l, None)
  }

  /**
   Stores `{publicKey, metaDataHash}` under `user_<args[0]>` unless something is already
   stored there. It performs no authority check: the caller plays no part.
   */
  function IssueIdentity(l: Ledger, caller: string, args: seq<string>): (r: Step)
    ensures r.event == None
    ensures |args| < 3 ==> r.completion == Threw(ArgumentsMissing) && r.ledger == l
    ensures |args| >= 3 && HasText(l, UserKey(args[0])) ==>
      r.completion == Threw(IdAlreadyExists) && r.ledger == l
    ensures r.completion.Returned? <==> |args| >= 3 && !HasText(l, UserKey(args[0]))
    ensures r.completion.Returned? ==>
      && r.completion.payload == None
      && LoadUser(r.ledger, args[0]) == Some(User(args[1], Some(args[2])))
      && OnlyKeyChanged(l, r.ledger, UserKey(args[0]))
    ensures Agree(l, r.ledger, AuthorityKey)
    ensures WellFormed(l) ==> WellFormed(r.ledger)
  {
    if |args| < 3 then Step(Threw(ArgumentsMissing), l, None)
    else if HasText(l, UserKey(args[0])) then Step(Threw(IdAlreadyExists), l, None)
    else
      KeysDistinct(args[0], args[0]);
      ClassifyUserKey(args[0]);
      Step(Returned(None), l[UserKey(args[0]) := UserDoc(User(args[1], Some(args[2])))], None)
  }

  /**
   The body of `updateUserMetaDataHash` once the id and the new hash are in hand: a
   missing user is reported before the authority check, and only the hash changes.
   */
  function SetMetaDataHash(l: Ledger, caller: string, id: string, hash: Option<string>): (r: Step)
    ensures r.event == None
    ensures !HasText(l, UserKey(id)) ==> r.completion == Threw(UserNotFound) && r.ledger == l
    ensures HasText(l, UserKey(id)) && !Authorized(l, caller) ==>
      r.completion == Threw(NoPermission) && r.ledger == l
    ensures r.completion.Threw? ==> r.ledger == l
    ensures r.completion.Returned? <==> LoadUser(l, id).Some? && Authorized(l, caller)
    ensures r.completion.Returned? ==>
      && r.completion.payload == None
      && LoadUser(r.ledger, id) == Some(User(LoadUser(l, id).value.publicKey, hash))
      && OnlyKeyChanged(l, r.ledger, UserKey(id))
    ensures Agree(l, r.ledger, AuthorityKey)
    ensures WellFormed(l) ==> WellFormed(r.ledger)
  {
    if !HasText(l, UserKey(id)) then Step(Threw(UserNotFound), l, None)
    else if StoredAuthority(l) != caller then Step(Threw(NoPermission), l, None)
    else match LoadUser(l, id)
      case None => Step(Threw(SyntaxError), l, None)
      case Some(user) =>
        KeysDistinct(id, id);
        ClassifyUserKey(id);
        Step(Returned(None), l[UserKey(id) := UserDoc(user.(metaDataHash := hash))], None)
  }

  /**
   `updateUserMetaDataHash` as declared, with no parameters: its first use of `args`
   throws a ReferenceError, so every call fails and writes nothing.
   */
  function UpdateUserMetaDataHashAsDeclared(l: Ledger, caller: string, args: seq<string>): (r: Step)
    ensures r.completion.Threw? && r.ledger == l && r.event == None
  {
    Step(Threw(ReferenceError), l, None)
  }

  /**
   `updateUserMetaDataHash` given the `(stub, args)` parameters its body uses, with
   its argument check as written (`args.length < 1`): with one argument the new hash
   is `args[1] === undefined`.
   */
  function UpdateUserMetaDataHashWithParams(l: Ledger, caller: string, args: seq<string>): (r: Step)
    ensures r.event == None
    ensures |args| < 1 ==> r.completion == Threw(ArgumentsMissing) && r.ledger == l
    ensures |args| >= 1 && !HasText(l, UserKey(args[0])) ==> r.completion == Threw(UserNotFound)
    ensures |args| >= 1 && HasText(l, UserKey(args[0])) && !Authorized(l, caller) ==> r.completion == Threw(NoPermission)
    ensures r.completion.Threw? ==> r.ledger == l
    ensures r.completion.Returned? <==> |args| >= 1 && LoadUser(l, args[0]).Some? && Authorized(l, caller)
    ensures r.completion.Returned? ==>
      LoadUser(r.ledger, args[0])
        == Some(User(LoadUser(l, args[0]).value.publicKey, if |args| >= 2 then Some(args[1]) else None))
      && OnlyKeyChanged(l, r.ledger, UserKey(args[0]))
  {
    if |args| < 1 then Step(Threw(ArgumentsMissing), l, None)
    else SetMetaDataHash(l, caller, args[0], if |args| >= 2 then Some(args[1]) else None)
  }

  /**
   `updateUserMetaDataHash` as evidently intended: it takes `(stub, args)` and demands
   both the id and the new hash.
   */
  function UpdateUserMetaDataHash(l: Ledger, caller: string, args: seq<string>): (r: Step)
    ensures r.event == None
    ensures |args| < 2 ==> r.completion == Threw(ArgumentsMissing) && r.ledger == l
    ensures |args| >= 2 && !HasText(l, UserKey(args[0])) ==> r.completion == Threw(UserNotFound) && r.ledger == l
    ensures r.completion.Threw? ==> r.ledger == l
    ensures r.completion.Returned? <==> |args| >= 2 && LoadUser(l, args[0]).Some? && Authorized(l, caller)
    ensures r.completion.Returned? ==>
      var before := LoadUser(l, args[0]).value;
      && LoadUser(r.ledger, args[0]) == Some(User(before.publicKey, Some(args[1])))
      && OnlyKeyChanged(l, r.ledger, UserKey(args[0]))
    ensures Agree(l, r.ledger, AuthorityKey)
    ensures WellFormed(l) ==> WellFormed(r.ledger)
  {
    if |args| < 2 then Step(Threw(ArgumentsMissing), l, None)
    else SetMetaDataHash(l, caller, args[0], Some(args[1]))
  }

  /**
   `getIdentity` as written: only a missing argument throws; a missing user is an
   empty buffer, which `!user` lets through as the payload.
   */
  function GetIdentityAsWritten(l: Ledger, args: seq<string>): (r: Step)
    ensures r.ledger == l && r.event == None
    ensures r.completion.Threw? <==> |args| < 1
    ensures r.completion.Threw? ==> r.completion.error == ArgumentsMissing
    ensures r.completion.Returned? ==>
      (r.completion.payload.Some? <==> UserKey(args[0]) in l)
      && (r.completion.payload.Some? ==> r.completion.payload.value == l[UserKey(args[0])])
  {
    if |args| < 1 then Step(Threw(ArgumentsMissing), l, None)
    else Step(Returned(Read(l, UserKey(args[0]))), l, None)
  }

  /** `getIdentity` as evidently intended: it throws 'User not found' for an empty read. */
  function GetIdentity(l: Ledger, args: seq<string>): (r: Step)
    ensures r.ledger == l && r.event == None
    ensures |args| < 1 ==> r.completion == Threw(ArgumentsMissing)
    ensures |args| >= 1 && !HasText(l, UserKey(args[0])) ==> r.completion == Threw(UserNotFound)
    ensures r.completion.Returned? <==> |args| >= 1 && HasText(l, UserKey(args[0]))
    ensures r.completion.Returned? ==> r.completion.payload == Some(l[UserKey(args[0])])
  {
    if |args| < 1 then Step(Threw(ArgumentsMissing), l, None)
    else if !HasText(l, UserKey(args[0])) then Step(Threw(UserNotFound), l, None)
    else Step(Returned(Some(l[UserKey(args[0])])), l, None)
  }

  /**
   Authority-only: stores `{name, publicKey}` under `sp_<args[0]>` unless something is
   already stored there; the authority is checked before the duplicate.
   */
  function AddServiceProvider(l: Ledger, caller: string, args: seq<string>): (r: Step)
    ensures r.event == None
    ensures |args| < 3 ==> r.completion == Threw(ArgumentsMissing) && r.ledger == l
    ensures |args| >= 3 && !Authorized(l, caller) ==> r.completion == Threw(NoPermission) && r.ledger == l
    ensures |args| >= 3 && Authorized(l, caller) && HasText(l, SpKey(args[0])) ==>
      r.completion == Threw(IdAlreadyExists) && r.ledger == l
    ensures r.completion.Returned? <==> |args| >= 3 && Authorized(l, caller) && !HasText(l, SpKey(args[0]))
    ensures r.completion.Returned? ==>
      && r.completion.payload == None
      && LoadSp(r.ledger, args[0]) == Some(ServiceProvider(args[1], args[2]))
      && OnlyKeyChanged(l, r.ledger, SpKey(args[0]))
    ensures Agree(l, r.ledger, AuthorityKey)
    ensures WellFormed(l) ==> WellFormed(r.ledger)
  {
    if |args| < 3 then Step(Threw(ArgumentsMissing), l, None)
    else if StoredAuthority(l) != caller then Step(Threw(NoPermission), l, None)
    else if HasText(l, SpKey(args[0])) then Step(Threw(IdAlreadyExists), l, None)
    else
      KeysDistinct(args[0], args[0]);
      ClassifySpKey(args[0]);
      Step(Returned(None), l[SpKey(args[0]) := SpDoc(ServiceProvider(args[1], args[2]))], None)
  }

  /**
   `getServiceProvider` as written: only a missing argument throws; a missing record
   is an empty buffer, which `!sp` lets through as the payload.
   */
  function GetServiceProviderAsWritten(l: Ledger, args: seq<string>): (r: Step)
    ensures r.ledger == l && r.event == None
    ensures r.completion.Threw? <==> |args| < 1
    ensures r.completion.Threw? ==> r.completion.error == ArgumentsMissing
    ensures r.completion.Returned? ==>
      (r.completion.payload.Some? <==> SpKey(args[0]) in l)
      && (r.completion.payload.Some? ==> r.completion.payload.value == l[SpKey(args[0])])
  {
    if |args| < 1 then Step(Threw(ArgumentsMissing), l, None)
    else Step(Returned(Read(l, SpKey(args[0]))), l, None)
  }

  /**
   `getServiceProvider` as evidently intended: it throws 'Service provider not found'
   for an empty read.
   */
  function GetServiceProvider(l: Ledger, args: seq<string>): (r: Step)
    ensures r.ledger == l && r.event == None
    ensures |args| < 1 ==> r.completion == Threw(ArgumentsMissing)
    ensures |args| >= 1 && !HasText(l, SpKey(args[0])) ==> r.completion == Threw(ServiceProviderNotFound)
    ensures r.completion.Returned? <==> |args| >= 1 && HasText(l, SpKey(args[0]))
    ensures r.completion.Returned? ==> r.completion.payload == Some(l[SpKey(args[0])])
  {
    if |args| < 1 then Step(Threw(ArgumentsMissing), l, None)
    else if !HasText(l, SpKey(args[0])) then Step(Threw(ServiceProviderNotFound), l, None)
    else Step(Returned(Some(l[SpKey(args[0])])), l, None)
  }

  /**
   When `requestAccess` emits its event: the arguments parse, the user and the
   caller's service provider exist, the message grants access to the caller, and the
   library accepts the signature over the message's re-serialisation under the user's key.
   */
  predicate AccessGranted(l: Ledger, caller: string, args: seq<string>, rt: Runtime)
  {
    && |args| >= 3
    && rt.parse(args[1]).Parsed?
    && !rt.parse(args[2]).Malformed?
    && LoadUser(l, args[0]).Some?
    && rt.parse(args[1]).action == Some("grantAccess")
    && rt.parse(args[1]).to == Some(caller)
    && LoadSp(l, caller).Some?
    && rt.verify(rt.parse(args[1]).text, rt.parse(args[2]), LoadUser(l, args[0]).value.publicKey)
  }

  /**
   Checks a signed grant message. On success it emits a `grantAccess` event carrying
   the caller's service-provider key and MSP id; it never writes to the ledger.
   */
  function RequestAccess(l: Ledger, caller: string, args: seq<string>, rt: Runtime): (r: Step)
    ensures r.ledger == l
    ensures r.event.Some? <==> r.completion.Returned?
    ensures |args| < 3 ==> r.completion == Threw(ArgumentsMissing)
    // The errors in the order the handler raises them, each guarded by the checks before it.
    ensures |args| >= 3 ==>
      var id, msg, signature := args[0], rt.parse(args[1]), rt.parse(args[2]);
      var parsed := !msg.Malformed? && !signature.Malformed?;
      var grants := msg.Parsed? && msg.action == Some("grantAccess") && msg.to == Some(caller);
      && (!parsed ==> r.completion == Threw(SyntaxError))
      && (parsed && !HasText(l, UserKey(id)) ==> r.completion == Threw(UserNotFound))
      && (parsed && HasText(l, UserKey(id)) && msg.Null? ==> r.completion == Threw(TypeError))
      && (parsed && HasText(l, UserKey(id)) && msg.Parsed? && !grants ==> r.completion == Threw(PermissionInvalid))
      && (parsed && HasText(l, UserKey(id)) && grants && !HasText(l, SpKey(caller))
          ==> r.completion == Threw(ServiceProviderNotFound))
      && (WellFormed(l) && parsed && grants && LoadUser(l, id).Some? && LoadSp(l, caller).Some?
          && !rt.verify(msg.text, signature, LoadUser(l, id).value.publicKey)
          ==> r.completion == Threw(PermissionInvalid))
    ensures WellFormed(l) ==> (r.completion.Returned? <==> AccessGranted(l, caller, args, rt))
    ensures r.completion.Returned? ==>
      && AccessGranted(l, caller, args, rt)
      && r.completion.payload == None
      && r.event == Some(GrantEvent(LoadSp(l, caller).value.publicKey, caller))
  {
    if |args| < 3 then Step(Threw(ArgumentsMissing), l, None)
    else
      var msg := rt.parse(args[1]);
      var signature := rt.parse(args[2]);
      if msg.Malformed? || signature.Malformed? then Step(Threw(SyntaxError), l, None)
      else if !HasText(l, UserKey(args[0])) then
        UserPresence(l, args[0]);
        Step(Threw(UserNotFound), l, None)
      else if msg.Null? then Step(Threw(TypeError), l, None)
      else if msg.action != Some("grantAccess") || msg.to != Some(caller) then Step(Threw(PermissionInvalid), l, None)
      else if !HasText(l, SpKey(caller)) then
        SpPresence(l, caller);
        Step(Threw(ServiceProviderNotFound), l, None)
      else match LoadUser(l, args[0])
        case None =>
          UserPresence(l, args[0]);
          Step(Threw(SyntaxError), l, None)
        case Some(user) =>
          if !rt.verify(msg.text, signature, user.publicKey) then Step(Threw(PermissionInvalid), l, None)
          else match LoadSp(l, caller)
            case None =>
              SpPresence(l, caller);
              Step(Threw(SyntaxError), l, None)
            case Some(sp) =>
              Step(Returned(None), l, Some(GrantEvent(sp.publicKey, caller)))
  }

  /** Wraps a handler's completion into the chaincode response. */
  function Respond(s: Step): (r: Reply)
    ensures r.ledger == s.ledger && r.event == s.event
    ensures r.response.Ok? <==> s.completion.Returned?
    ensures r.response.Ok? ==> r.response.payload == s.completion.payload
    ensures r.response.Fail? ==> r.response.error == s.completion.error
  {
    match s.completion
    case Returned(payload) => Reply(Ok(payload), s.ledger, s.event)
    case Threw(e) => Reply(Fail(e), s.ledger, s.event)
  }

  /** The transaction handlers: the methods of the class other than `Init` and `Invoke`. */
  const Handlers: set<string> := {
    "getCreatorIdentity", "issueIdentity", "updateUserMetaDataHash", "getIdentity",
    "addServiceProvider", "getServiceProvider", "requestAccess"
  }

  /** The handlers that may write to the ledger. */
  const Writers: set<string> := {"issueIdentity", "updateUserMetaDataHash", "addServiceProvider"}

  /**
   `Invoke` as written: it looks the function name up among ALL the methods of the
   chaincode object, `Init` and `Invoke` included, and calls what it finds unbound.
   `Invoke` reached this way throws a TypeError on `this`; `updateUserMetaDataHash` is
   the method as declared, and the three reads never report a missing record.
   */
  function Invoke(l: Ledger, caller: string, fn: string, args: seq<string>, rt: Runtime): (r: Reply)
    ensures fn !in Handlers + {"Init", "Invoke"} ==> r == Reply(Fail(NoSuchMethod), l, None)
    ensures r.ledger != l ==> fn in {"Init", "issueIdentity", "addServiceProvider"}
    ensures fn != "Init" ==> Agree(l, r.ledger, AuthorityKey)
    ensures fn == "Init" ==> r.response == Ok(None) && StoredAuthority(r.ledger) == caller
    ensures fn == "updateUserMetaDataHash" ==> r.response.Fail? && r.ledger == l
    ensures fn == "getCreatorIdentity" ==> r.response.Ok? && r.ledger == l
    ensures fn in {"getIdentity", "getServiceProvider"} ==> (r.response.Ok? <==> |args| >= 1) && r.ledger == l
    ensures r.response.Fail? ==> r.ledger == l
    ensures WellFormed(l) ==> WellFormed(r.ledger)
  {
    if fn == "Init" then Respond(Init(l, caller))
    else if fn == "Invoke" then Reply(Fail(TypeError), l, None)
    else if fn == "updateUserMetaDataHash" then Respond(UpdateUserMetaDataHashAsDeclared(l, caller, args))
    else if fn == "getCreatorIdentity" then Respond(GetCreatorIdentityAsWritten(l))
    else if fn == "getIdentity" then Respond(GetIdentityAsWritten(l, args))
    else if fn == "getServiceProvider" then Respond(GetServiceProviderAsWritten(l, args))
    else Dispatch(l, caller, fn, args, rt)
  }

  /**
   The handlers other than `updateUserMetaDataHash`, with the reads as intended; the
   as-written `Invoke` reaches only the writers and `requestAccess` through it.
   */
  function Dispatch(l: Ledger, caller: string, fn: string, args: seq<string>, rt: Runtime): (r: Reply)
    requires fn != "updateUserMetaDataHash"
    ensures fn !in Handlers ==> r == Reply(Fail(NoSuchMethod), l, None)
    ensures r.response.Fail? ==> r.ledger == l
    ensures r.event.Some? ==> fn == "requestAccess"
    ensures r.ledger != l ==> fn in Writers
    ensures Agree(l, r.ledger, AuthorityKey)
    ensures WellFormed(l) ==> WellFormed(r.ledger)
  {
    if fn == "getCreatorIdentity" then Respond(GetCreatorIdentity(l))
    else if fn == "issueIdentity" then Respond(IssueIdentity(l, caller, args))
    else if fn == "getIdentity" then Respond(GetIdentity(l, args))
    else if fn == "addServiceProvider" then Respond(AddServiceProvider(l, caller, args))
    else if fn == "getServiceProvider" then Respond(GetServiceProvider(l, args))
    else if fn == "requestAccess" then Respond(RequestAccess(l, caller, args, rt))
    else Reply(Fail(NoSuchMethod), l, None)
  }

  /**
   `Invoke` as evidently intended: only the transaction handlers are reachable,
   `updateUserMetaDataHash` takes its arguments and demands both of them, and the
   reads report a missing record. No call
   touches the authority; a caller other than the authority can only add records
   under keys that were empty.
   */
  function InvokeFixed(l: Ledger, caller: string, fn: string, args: seq<string>, rt: Runtime): (r: Reply)
    ensures fn !in Handlers ==> r == Reply(Fail(NoSuchMethod), l, None)
    ensures r.response.Fail? ==> r.ledger == l
    ensures r.event.Some? ==> fn == "requestAccess"
    ensures r.ledger != l ==> fn in Writers
    ensures Agree(l, r.ledger, AuthorityKey)
    ensures WellFormed(l) ==> WellFormed(r.ledger)
    ensures WellFormed(l) && !Authorized(l, caller) ==>
      forall k :: k in l ==> k in r.ledger && r.ledger[k] == l[k]
  {
    if fn == "updateUserMetaDataHash" then Respond(UpdateUserMetaDataHash(l, caller, args))
    else
      var r := Dispatch(l, caller, fn, args, rt);
      if fn == "issueIdentity" && |args| >= 3 then
        UserPresence(l, args[0]);
        r
      else r
  }

  /** The ledger after a sequence of invocations through the as-written `Invoke`. */
  function RunAsWritten(l: Ledger, calls: seq<Call>, rt: Runtime): Ledger
    decreases |calls|
  {
    if |calls| == 0 then l
    else RunAsWritten(Invoke(l, calls[0].caller, calls[0].fn, calls[0].args, rt).ledger, calls[1..], rt)
  }

  /** The ledger after a sequence of invocations through `InvokeFixed`. */
  function Run(l: Ledger, calls: seq<Call>, rt: Runtime): Ledger
    decreases |calls|
  {
    if |calls| == 0 then l
    else Run(InvokeFixed(l, calls[0].caller, calls[0].fn, calls[0].args, rt).ledger, calls[1..], rt)
  }
}

=== FILE: js_properties.dfy ===
/** Properties of the JavaScript chaincode that relate several calls, and its defects. */
module JsProperties {
  import opened Base
  import opened Keys
  import opened Store
  import opened JsChaincode

  /**
   `getCreatorIdentity` after `Init` returns the initialiser's MSP id; an empty MSP id
   reads back as no authority at all.
   */
  lemma InitThenGetCreator(l: JsChaincode.Ledger, caller: string)
    ensures caller != "" ==> GetCreatorIdentity(Init(l, caller).ledger).completion == Returned(Some(Raw(caller)))
    ensures caller == "" ==> GetCreatorIdentity(Init(l, caller).ledger).completion == Threw(CreatorNotFound)
  {
  }

  /** `getIdentity` after a successful `issueIdentity` returns the issued record. */
  lemma IssueThenGet(l: JsChaincode.Ledger, caller: string, id: string, publicKey: string, hash: string)
    requires UserKey(id) !in l
    ensures
      var issued := IssueIdentity(l, caller, [id, publicKey, hash]);
      && issued.completion == Returned(None)
      && GetIdentity(issued.ledger, [id]).completion == Returned(Some(UserDoc(User(publicKey, Some(hash)))))
  {
  }

  /**
   A second `issueIdentity` for the same id throws 'ID already exists' and leaves the
   first record in place, whoever calls it.
   */
  lemma IssueRejectsDuplicate(l: JsChaincode.Ledger, c1: string, c2: string, id: string,
                              pk1: string, h1: string, pk2: string, h2: string)
    requires UserKey(id) !in l
    ensures
      var first := IssueIdentity(l, c1, [id, pk1, h1]).ledger;
      var second := IssueIdentity(first, c2, [id, pk2, h2]);
      && second.completion == Threw(IdAlreadyExists)
      && second.ledger == first
      && LoadUser(second.ledger, id) == Some(User(pk1, Some(h1)))
  {
  }

  /** `issueIdentity` does not look at the caller: any organisation may issue. */
  lemma IssueIgnoresCaller(l: JsChaincode.Ledger, c1: string, c2: string, args: seq<string>)
    ensures IssueIdentity(l, c1, args) == IssueIdentity(l, c2, args)
  {
  }

  /** A second `addServiceProvider` for the same id throws and keeps the first record. */
  lemma AddServiceProviderRejectsDuplicate(l: JsChaincode.Ledger, caller: string, id: string,
                                           n1: string, k1: string, n2: string, k2: string)
    requires Authorized(l, caller)
    requires SpKey(id) !in l
    ensures
      var first := AddServiceProvider(l, caller, [id, n1, k1]).ledger;
      var second := AddServiceProvider(first, caller, [id, n2, k2]);
      && second.completion == Threw(IdAlreadyExists)
      && LoadSp(second.ledger, id) == Some(ServiceProvider(n1, k1))
  {
    var first := AddServiceProvider(l, caller, [id, n1, k1]).ledger;
    assert Agree(l, first, AuthorityKey);
  }

  /** `getServiceProvider` after a successful `addServiceProvider` returns the new record. */
  lemma AddThenGetServiceProvider(l: JsChaincode.Ledger, caller: string, id: string, name: string, pk: string)
    requires Authorized(l, caller)
    requires SpKey(id) !in l
    ensures
      var added := AddServiceProvider(l, caller, [id, name, pk]);
      && added.completion == Returned(None)
      && GetServiceProvider(added.ledger, [id]).completion == Returned(Some(SpDoc(ServiceProvider(name, pk))))
  {
  }

  /** As written, `getCreatorIdentity` on a ledger nobody initialised succeeds, empty. */
  lemma MissingCreatorReadsEmpty(rt: Runtime)
    ensures Invoke(map[], "C", "getCreatorIdentity", [], rt) == Reply(Ok(None), map[], None)
    ensures InvokeFixed(map[], "C", "getCreatorIdentity", [], rt) == Reply(Fail(CreatorNotFound), map[], None)
  {
  }

  /** As written, `getIdentity` of a user never issued succeeds with an empty payload. */
  lemma MissingUserReadsEmpty(rt: Runtime)
    ensures
      var l: JsChaincode.Ledger := map[AuthorityKey := Raw("A")];
      && Invoke(l, "A", "getIdentity", ["bob"], rt) == Reply(Ok(None), l, None)
      && InvokeFixed(l, "A", "getIdentity", ["bob"], rt) == Reply(Fail(UserNotFound), l, None)
  {
  }

  /** As written, `getServiceProvider` of an unregistered id succeeds with an empty payload. */
  lemma MissingProviderReadsEmpty(rt: Runtime)
    ensures
      var l: JsChaincode.Ledger := map[AuthorityKey := Raw("A")];
      && Invoke(l, "A", "getServiceProvider", ["B"], rt) == Reply(Ok(None), l, None)
      && InvokeFixed(l, "A", "getServiceProvider", ["B"], rt) == Reply(Fail(ServiceProviderNotFound), l, None)
  {
  }

  /**
   The as-written `Invoke` lets any organisation re-run `Init` and make itself the
   authority: here `C` takes over from `A` and then registers a service provider.
   */
  lemma InitTakeover(rt: Runtime)
    ensures
      var l: JsChaincode.Ledger := map[AuthorityKey := Raw("A")];
      var taken := Invoke(l, "C", "Init", [], rt);
      && taken.response.Ok?
      && StoredAuthority(taken.ledger) == "C"
      && Invoke(taken.ledger, "C", "addServiceProvider", ["C", "Rogue", "key"], rt).response.Ok?
  {
    var l: JsChaincode.Ledger := map[AuthorityKey := Raw("A")];
    var taken := Invoke(l, "C", "Init", [], rt);
    KeysDistinct("C", "C");
    assert SpKey("C") !in taken.ledger;
  }

  /**
   Through the as-written `Invoke`, `Init` is the only way to the authority key: a
   sequence of calls none of which is named `Init` leaves it as it was.
   */
  lemma {:induction false} AuthorityStableWithoutInit(l: JsChaincode.Ledger, calls: seq<Call>, rt: Runtime)
    requires forall i :: 0 <= i < |calls| ==> calls[i].fn != "Init"
    ensures Agree(l, RunAsWritten(l, calls, rt), AuthorityKey)
    decreases |calls|
  {
    if |calls| > 0 {
      var next := Invoke(l, calls[0].caller, calls[0].fn, calls[0].args, rt).ledger;
      AuthorityStableWithoutInit(next, calls[1..], rt);
    }
  }

  /** Through `InvokeFixed`, no sequence of calls changes the authority key. */
  lemma {:induction false} AuthorityStable(l: JsChaincode.Ledger, calls: seq<Call>, rt: Runtime)
    ensures Agree(l, Run(l, calls, rt), AuthorityKey)
    decreases |calls|
  {
    if |calls| > 0 {
      var next := InvokeFixed(l, calls[0].caller, calls[0].fn, calls[0].args, rt).ledger;
      AuthorityStable(next, calls[1..], rt);
    }
  }

  /** After `Init` by `a`, the authority check passes for `a` and nobody else, for good. */
  lemma AuthorityAfterInit(l: JsChaincode.Ledger, a: string, calls: seq<Call>, rt: Runtime, x: string)
    ensures Authorized(Run(Init(l, a).ledger, calls, rt), x) <==> x == a
  {
    AuthorityStable(Init(l, a).ledger, calls, rt);
  }

  /** Invocations keep every key in its namespace holding the right kind of record. */
  lemma {:induction false} RunKeepsWellFormed(l: JsChaincode.Ledger, calls: seq<Call>, rt: Runtime)
    requires WellFormed(l)
    ensures WellFormed(Run(l, calls, rt))
    decreases |calls|
  {
    if |calls| > 0 {
      var next := InvokeFixed(l, calls[0].caller, calls[0].fn, calls[0].args, rt).ledger;
      RunKeepsWellFormed(next, calls[1..], rt);
    }
  }

  /**
   Calls from organisations other than the authority never alter or remove a stored
   record; at most they add users under ids that were free.
   */
  lemma {:induction false} OutsidersOnlyAdd(l: JsChaincode.Ledger, calls: seq<Call>, rt: Runtime)
    requires WellFormed(l)
    requires forall i :: 0 <= i < |calls| ==> calls[i].caller != StoredAuthority(l)
    ensures forall k :: k in l ==> k in Run(l, calls, rt) && Run(l, calls, rt)[k] == l[k]
    decreases |calls|
  {
    if |calls| > 0 {
      var next := InvokeFixed(l, calls[0].caller, calls[0].fn, calls[0].args, rt).ledger;
      assert StoredAuthority(next) == StoredAuthority(l);
      OutsidersOnlyAdd(next, calls[1..], rt);
    }
  }

  /** As declared, `updateUserMetaDataHash` fails on every input, so no hash ever changes. */
  lemma UpdateAsDeclaredNeverSucceeds(l: JsChaincode.Ledger, caller: string, args: seq<string>, rt: Runtime)
    ensures Invoke(l, caller, "updateUserMetaDataHash", args, rt) == Reply(Fail(ReferenceError), l, None)
  {
  }

  /** With its parameters, the authority can update an existing user's hash. */
  lemma UpdateWithParamsSucceeds()
    ensures
      var l: JsChaincode.Ledger := map[AuthorityKey := Raw("A"), UserKey("alice") := UserDoc(User("pk", Some("h1")))];
      var r := UpdateUserMetaDataHashWithParams(l, "A", ["alice", "h2"]);
      && r.completion == Returned(None)
      && LoadUser(r.ledger, "alice") == Some(User("pk", Some("h2")))
  {
    KeysDistinct("alice", "alice");
  }

  /**
   The `args.length < 1` check lets a one-argument call through, and it stores the
   user without a metadata hash at all.
   */
  lemma OneArgumentErasesHash()
    ensures
      var l: JsChaincode.Ledger := map[AuthorityKey := Raw("A"), UserKey("alice") := UserDoc(User("pk", Some("h1")))];
      var r := UpdateUserMetaDataHashWithParams(l, "A", ["alice"]);
      && r.completion == Returned(None)
      && LoadUser(r.ledger, "alice") == Some(User("pk", None))
  {
    KeysDistinct("alice", "alice");
  }

  /** Through `InvokeFixed`, every stored user keeps a metadata hash. */
  lemma {:induction false} HashesStayDefined(l: JsChaincode.Ledger, calls: seq<Call>, rt: Runtime, id: string)
    requires LoadUser(l, id).Some? ==> LoadUser(l, id).value.metaDataHash.Some?
    ensures LoadUser(Run(l, calls, rt), id).Some? ==> LoadUser(Run(l, calls, rt), id).value.metaDataHash.Some?
    decreases |calls|
  {
    if |calls| > 0 {
      var c := calls[0];
      var next := InvokeFixed(l, c.caller, c.fn, c.args, rt).ledger;
      if next != l && |c.args| > 0 && c.args[0] != id {
        KeysDistinct(c.args[0], id);
      }
      HashesStayDefined(next, calls[1..], rt, id);
    }
  }

  /**
   The end-to-end scenario: authority `A` issues "alice" and registers service
   provider `B`; `B` asks with a message granting access to `B` that the library
   accepts. The request succeeds with a `grantAccess` event for `B`, and alice's
   record is unchanged: no permission is stored.
   */
  lemma GrantScenario(l: JsChaincode.Ledger, rt: Runtime, message: string, signature: string)
    requires UserKey("alice") !in l && SpKey("B") !in l
    requires rt.parse(message) == Parsed(Some("grantAccess"), Some("B"), message)
    requires !rt.parse(signature).Malformed?
    requires rt.verify(message, rt.parse(signature), "PK")
    ensures
      var l1 := Init(l, "A").ledger;
      var l2 := InvokeFixed(l1, "A", "issueIdentity", ["alice", "PK", "h1"], rt).ledger;
      var l3 := InvokeFixed(l2, "A", "addServiceProvider", ["B", "Provider B", "spkey"], rt).ledger;
      var granted := InvokeFixed(l3, "B", "requestAccess", ["alice", message, signature], rt);
      && granted.response == Ok(None)
      && granted.event == Some(GrantEvent("spkey", "B"))
      && granted.ledger == l3
      && LoadUser(granted.ledger, "alice") == Some(User("PK", Some("h1")))
  {
    var l1 := Init(l, "A").ledger;
    KeysDistinct("alice", "B");
    assert UserKey("alice") !in l1 && SpKey("B") !in l1;
    var issued := IssueIdentity(l1, "A", ["alice", "PK", "h1"]);
    assert issued.completion.Returned?;
    var l2 := issued.ledger;
    assert InvokeFixed(l1, "A", "issueIdentity", ["alice", "PK", "h1"], rt).ledger == l2;
    assert Agree(l1, l2, SpKey("B"));
    var added := AddServiceProvider(l2, "A", ["B", "Provider B", "spkey"]);
    assert added.completion.Returned?;
    var l3 := added.ledger;
    assert InvokeFixed(l2, "A", "addServiceProvider", ["B", "Provider B", "spkey"], rt).ledger == l3;
    assert Agree(l2, l3, UserKey("alice"));
    assert LoadUser(l3, "alice") == Some(User("PK", Some("h1")));
    assert LoadSp(l3, "B") == Some(ServiceProvider("Provider B", "spkey"));
    assert HasText(l3, UserKey("alice")) && HasText(l3, SpKey("B"));
    var request := RequestAccess(l3, "B", ["alice", message, signature], rt);
    assert request.completion == Returned(None);
  }
}

=== FILE: keys.dfy ===
/**
 The three key namespaces of the chaincode's world state: the singleton
 `identityAuthority`, users under `user_<id>` and service providers under `sp_<id>`.
 */
module Keys {

  const AuthorityKey: string := "identityAuthority"
  const UserPrefix: string := "user_"
  const SpPrefix: string := "sp_"

  function UserKey(id: string): string
  {
    UserPrefix + id
  }

  function SpKey(id: string): string
  {
    SpPrefix + id
  }

  /** What a ledger key names; `Foreign` keys are never written by the chaincode. */
  datatype KeyKind = AuthorityKind | UserKind(id: string) | SpKind(id: string) | Foreign

  /** Reads a key back into the namespace and id it was built from. */
  function Classify(k: string): KeyKind
  {
    if k == AuthorityKey then AuthorityKind
    else if UserPrefix <= k then UserKind(k[|UserPrefix|..])
    else if SpPrefix <= k then SpKind(k[|SpPrefix|..])
    else Foreign
  }

  lemma ClassifyAuthorityKey()
    ensures Classify(AuthorityKey) == AuthorityKind
  {
  }

  /** A user key parses back to its user id. */
  lemma ClassifyUserKey(id: string)
    ensures Classify(UserKey(id)) == UserKind(id)
  {
    var k := UserKey(id);
    assert k[0] == 'u';
    assert AuthorityKey[0] == 'i';
    assert k[..|UserPrefix|] == UserPrefix;
    assert k[|UserPrefix|..] == id;
  }

  /** A service-provider key parses back to its organisation id. */
  lemma ClassifySpKey(id: string)
    ensures Classify(SpKey(id)) == SpKind(id)
  {
    var k := SpKey(id);
    assert k[0] == 's';
    assert AuthorityKey[0] == 'i';
    assert k[..|SpPrefix|] == SpPrefix;
    assert k[|SpPrefix|..] == id;
  }

  /**
   The namespaces never collide: key construction is injective within a namespace
   and the three namespaces are pairwise disjoint.
   */
  lemma KeysDistinct(a: string, b: string)
    ensures UserKey(a) == UserKey(b) <==> a == b
    ensures SpKey(a) == SpKey(b) <==> a == b
    ensures UserKey(a) != SpKey(b)
    ensures UserKey(a) != AuthorityKey && SpKey(a) != AuthorityKey
  {
    ClassifyAuthorityKey();
    ClassifyUserKey(a);
    ClassifyUserKey(b);
    ClassifySpKey(a);
    ClassifySpKey(b);
  }
}

=== FILE: store.dfy ===
/**
 The world state both chaincode versions read and write: a map from string keys to
 stored values. Each version instantiates `Value` with its own user record.
 */
module Store {
  import opened Base
  import opened Keys

  /** The service-provider record; both versions store `{name, publicKey}`. */
  datatype ServiceProvider = ServiceProvider(name: string, publicKey: string)

  /**
   A stored value: the raw org id bytes under `identityAuthority`, or a serialised
   record. JSON text is not modelled; a record stands for its serialisation.
   */
  datatype Value<U> = Raw(text: string) | UserDoc(user: U) | SpDoc(sp: ServiceProvider)

  type Ledger<U> = map<string, Value<U>>

  /** One invocation: the caller's MSP id, the function name and its string arguments. */
  datatype Call = Call(caller: string, fn: string, args: seq<string>)

  /**
   The stored authority as a string, as both versions read it: converting the bytes
   that `GetState("identityAuthority")` returns, so an absent key reads as "".
   */
  function StoredAuthority<U>(l: Ledger<U>): string
  {
    if AuthorityKey in l && l[AuthorityKey].Raw? then l[AuthorityKey].text else ""
  }

  /** The authority check of every authority-gated handler. */
  predicate Authorized<U>(l: Ledger<U>, caller: string)
  {
    StoredAuthority(l) == caller
  }

  /** True when the stored bytes at `k`, read as a string, are non-empty. */
  predicate HasText<U>(l: Ledger<U>, k: string)
  {
    k in l && !(l[k].Raw? && l[k].text == "")
  }

  /** Reads and deserialises the user at `user_<id>`; an absent key fails to deserialise. */
  function LoadUser<U>(l: Ledger<U>, id: string): Option<U>
  {
    if UserKey(id) in l && l[UserKey(id)].UserDoc? then Some(l[UserKey(id)].user) else None
  }

  /** Reads and deserialises the service provider at `sp_<id>`. */
  function LoadSp<U>(l: Ledger<U>, id: string): Option<ServiceProvider>
  {
    if SpKey(id) in l && l[SpKey(id)].SpDoc? then Some(l[SpKey(id)].sp) else None
  }

  /** Which kind of value each namespace holds. */
  predicate Fits<U>(kind: KeyKind, v: Value<U>)
  {
    match kind
    case AuthorityKind => v.Raw?
    case UserKind(_) => v.UserDoc?
    case SpKind(_) => v.SpDoc?
    case Foreign => false
  }

  /** Every key is in one of the three namespaces and holds the matching kind of value. */
  ghost predicate WellFormed<U>(l: Ledger<U>)
  {
    forall k :: k in l ==> Fits(Classify(k), l[k])
  }

  /** `l` and `l'` agree on key `k`: both lack it or both map it to the same value. */
  ghost predicate Agree<U>(l: Ledger<U>, l': Ledger<U>, k: string)
  {
    (k in l <==> k in l') && (k in l ==> l[k] == l'[k])
  }

  /** Nothing but key `k` differs between `l` and `l'`. */
  ghost predicate OnlyKeyChanged<U>(l: Ledger<U>, l': Ledger<U>, k: string)
  {
    forall k' :: k' != k ==> Agree(l, l', k')
  }

  /**
   In a well-formed ledger the authority check passes exactly for the stored org id,
   and, while none is stored, only for the empty org id.
   */
  lemma AuthorizedIff<U>(l: Ledger<U>, caller: string)
    requires WellFormed(l)
    ensures Authorized(l, caller) <==>
      (AuthorityKey in l && l[AuthorityKey] == Raw(caller)) || (AuthorityKey !in l && caller == "")
  {
    ClassifyAuthorityKey();
  }

  /** In a well-formed ledger a non-empty user key always deserialises. */
  lemma UserPresence<U>(l: Ledger<U>, id: string)
    ensures WellFormed(l) ==> (HasText(l, UserKey(id)) <==> LoadUser(l, id).Some?)
    ensures WellFormed(l) ==> (UserKey(id) in l <==> LoadUser(l, id).Some?)
  {
    ClassifyUserKey(id);
  }

  /** In a well-formed ledger a non-empty service-provider key always deserialises. */
  lemma SpPresence<U>(l: Ledger<U>, id: string)
    ensures WellFormed(l) ==> (HasText(l, SpKey(id)) <==> LoadSp(l, id).Some?)
    ensures WellFormed(l) ==> (SpKey(id) in l <==> LoadSp(l, id).Some?)
  {
    ClassifySpKey(id);
  }
}
